=== FILE: README.md ===
# WebRTC signalling relay — a Dafny model of its socket-event state machine

The relay lets browser peers meet in named rooms and exchange the metadata
they need to open direct WebRTC connections: SDP offers and answers, ICE
candidates, chat lines, display-name changes and on/off status flags. It never
carries media itself. This project models the socket.io `connect` block of
`server.js` as pure functions and proves properties of that model.

The model keeps the relay's four stores in one immutable `Store.State`:

- `sockets`: the registered connection ids.
- `channels[room]`: the member ids of each room, in join order.
- `peers[room]`: one presence record per member (`peer_name`, `peer_video`,
  `peer_audio`, `peer_hand`). It is a `PeerTable`: the key list in insertion
  order plus a map from id to record.
- `joined[id]`: that connection's own `socket.channels`.

JavaScript `for…in` visits string keys in insertion order, so every key list
is a sequence without duplicates (`Seqs.Insert` / `Seqs.Remove` are
`obj[k] = v` and `delete obj[k]` on it). Each handler is a function
`(State, inputs) -> (State, seq<Outbound>)`. An `Outbound` is a target id
and one of the seven outbound events (`addPeer`, `removePeer`,
`iceCandidate`, `sessionDescription`, `onMessage`, `onCName`,
`onpeerStatus`), listed in the order they are emitted. `Server.Step`
dispatches one inbound event. `Server.Run` folds a sequence of them.

Modules, one per part of the handler block:

- `Seqs`: insertion-ordered key lists.
- `Store`: the state, its accessors and the cross-store invariant `Inv`.
- `Messages`: outbound events and the fan-out to a client-supplied recipient list.
- `Membership`: connect, `join`, `removePeerFrom`, `disconnect`.
- `Invariants`: invariant preservation and the join/leave round trip.
- `Relay`: `relayICE`, `relaySDP`, `msg`.
- `PresenceUpdates`: `cName`, `peerStatus`.
- `Server`: the step function, runs, and a lobby walk-through.
- `PrototypeKeys`: the join guard exactly as written (see Findings).

In these places the model follows the code exactly:

- There is no `leave` socket event. `removePeerFrom` runs only from the
  disconnect handler, so `Server.Event` has no leave case. `Membership.Leave`
  is still modelled and proved on its own.
- `cName` does not stop at the first record with the old name. It renames
  every such record and reports the id of the LAST one.
- A leave deletes `peers[room]` once it is empty but never deletes
  `channels[room]`. An empty room keeps an empty `channels` entry.
- A private `msg` returns after the single targeted send, even when the
  target is not registered.
- `peerStatus` broadcasts the sender's id whether or not any record matched.

Payload values are opaque `Store.Json` values. The `iceServers` list is an
opaque `Json` parameter of `Join` and `Step`, copied into every `addPeer`.

## Model

| member | source | states |
|---|---|---|
| Seqs.Insert | server.js:170-171 | assigning a key keeps the old key list as a prefix and adds at most the new key; the key set becomes old ∪ {key}; distinct keys stay distinct |
| Seqs.Remove | server.js:184-186 | deleting a key leaves exactly the other keys; it never grows the list; distinct keys stay distinct; deleting an absent key changes nothing |
| Seqs.RemoveKeepsOrder | server.js:184-186 | deleting the key at position k of a duplicate-free list gives the keys before it followed by the keys after it, in their old order, one fewer |
| Seqs.RemoveInsertFresh | server.js:170-185 | adding a fresh key and then deleting it gives back the original key list |
| Store.MembersAreRegistered | server.js:107-115 | under the invariant, every member of any room is a registered connection |
| Messages.SendIfPresent | server.js:212-217 | a point-to-point send emits at most one event, exactly when the target is registered, and only that event to that target |
| Messages.Broadcast | server.js:277-286 | the `peerConnections` fan-out: the recipients are the keys of the list that are registered, in list order, each once per occurrence; unregistered keys and ids outside the list get nothing |
| Membership.Join | server.js:120-172 | a join for a room already in `socket.channels` changes nothing and emits nothing; otherwise the joiner ends up in `socket.channels`, `channels[room]` and `peers[room]` with its record; other rooms, other connections and `sockets` are untouched; `channels[room]` is never removed |
| Membership.Leave | server.js:178-198 | a leave of a room not in `socket.channels` is a no-op; otherwise the id leaves all three stores and every other key of `socket.channels`, `channels[room]` and `peers[room]` stays, in its old order; the other records keep their values; `peers[room]` survives exactly when some other record remains; `channels[room]` is never deleted; other rooms, other connections and `sockets` are unchanged; every event is a `removePeer` with the leaver on exactly one side |
| Membership.LeaveAll | server.js:110-112 | after leaving a list of rooms, the connection's rooms are exactly its old ones minus the list; each left room loses exactly the leaver from `channels` and `peers`, keeping the other keys in order and the other records' values; rooms not left, `sockets`, other connections and existing `channels` keys are unchanged; every event is a `removePeer` with the leaver on exactly one side |
| Membership.Disconnect | server.js:109-115 | the id leaves `sockets` and has no `socket.channels` left; each room it was in loses exactly it from `channels` and `peers`, keeping the other keys in order and the other records' values; every other room and connection is unchanged; every event emitted is a `removePeer` with the leaver on exactly one side |
| Membership.IntroductionsShape | server.js:152-168 | the join emissions are 2n events for n earlier members: pair i tells member i about the joiner (offer false), then tells the joiner about member i (offer true) |
| Membership.FarewellsShape | server.js:193-197 | the leave emissions are 2n events for n remaining members: pair i tells member i about the leaver, then tells the leaver about member i |
| Membership.FarewellsPairs | server.js:193-197 | as a set, the leave emissions are both `removePeer` directions for every remaining member and nothing else |
| Membership.FarewellsCopies | server.js:193-197 | among one leave's emissions, each direction of the parting with a remaining member occurs exactly once, and none with anyone else |
| Membership.JoinFanOut | server.js:144-168 | a join into a room with n earlier members emits exactly 2n `addPeer` events, none for an empty room, with those roles; every roster sent already holds the joiner's record |
| Membership.JoinRoles | server.js:152-168 | every event to the joiner has `should_create_offer` set and names an earlier member; every other event goes to an earlier member, clears it and names the joiner |
| Membership.LeaveFanOut | server.js:184-197 | a leave that takes effect emits exactly two `removePeer` events per member still in `channels[room]`, one each way; the leaver is not among those members |
| Membership.Connect | server.js:106-107 | a connect registers the id with an empty `socket.channels`; `channels`, `peers` and every other connection's rooms are unchanged |
| Invariants.ConnectKeepsInv | server.js:103-107 | registering a fresh connection keeps the cross-store invariant |
| Invariants.JoinKeepsInv | server.js:120-172 | a join by a registered connection keeps the invariant: room ∈ socket.channels ⇔ id ∈ channels[room] ⇔ id ∈ peers[room], with distinct keys and no empty `peers` entry |
| Invariants.LeaveKeepsInv | server.js:178-191 | a leave keeps the same invariant |
| Invariants.LeaveRecords | server.js:184-191 | under the invariant, a leave removes exactly the leaver's record from the room's roster, even when it deletes the roster |
| Invariants.LeaveShrinksRoom | server.js:185 | under the invariant, a leave shortens `channels[room]` by exactly one and keeps every other member |
| Invariants.LeaveAllKeepsInv | server.js:110-112 | leaving any list of rooms keeps the invariant |
| Invariants.DisconnectCleans | server.js:109-115 | after the leave loop, `socket.channels` is empty and the id is in no room's `channels` or `peers`; after the disconnect, the id is not in `sockets` and the invariant holds |
| Invariants.LeaveAllCovers | server.js:193-197 | the leave loop (server.js:110-112) over a duplicate-free list of joined rooms tells, both ways, every other member of each of those rooms |
| Invariants.LeaveAllOnlyPartings | server.js:193-197 | every event of that leave loop is one direction of such a parting, for a room in the list and another member of it |
| Invariants.LeaveAllCount | server.js:193-197 | the leave loop emits exactly two events per other member of each room left |
| Invariants.DisconnectFanOut | server.js:109-115 | under the invariant, a disconnect tells both ways every other member of every room the connection was in, emits nothing else, emits exactly twice the number of such members (summed over rooms), and each direction of a parting occurs once per room the two share |
| Invariants.LeaveAllCopies | server.js:193-197 | the leave loop over distinct joined rooms emits each direction of the parting with another member once per listed room that member is in |
| Invariants.JoinThenLeave | server.js:144-191 | a join followed by a leave of the same room restores `peers`, `socket.channels` and `sockets` exactly; `channels` is restored except that a room with no entry before keeps an empty one |
| Invariants.JoinThenLeaveFresh | server.js:144-191 | the same round trip, from only the facts about the joiner and the room that it needs |
| Invariants.FreshJoin | server.js:134-171 | a join into a room the connection is not in appends it to `channels[room]`, `peers[room]` and `socket.channels`, creating empty entries first |
| Invariants.LeaveAfterFreshJoin | server.js:184-191 | leaving right after such a join removes exactly what the join added |
| Invariants.LeaveJoined | server.js:184 | leaving the room a connection joined last gives back its earlier `socket.channels` |
| Invariants.LeaveChannels | server.js:185 | leaving a room the connection joined last gives back the earlier `channels[room]` |
| Invariants.LeavePeers | server.js:186-191 | leaving a room whose roster got the leaver's record last gives back the earlier `peers`, without the entry if the join created it |
| Relay.RelayIce | server.js:203-218 | emits at most one `iceCandidate`, exactly when the target is registered; it goes to the target and carries the sender's id and the candidate |
| Relay.RelaySdp | server.js:223-238 | the same for `sessionDescription` and the session description |
| Relay.Msg | server.js:243-287 | a private message is at most one event, to the named target only, and only when it is registered; a public one reaches every registered key of `peerConnections` once per occurrence and no one else; both carry the sender's id |
| PresenceUpdates.LastMatch | server.js:294-303 | the value of `peer_id_to_update`: the last key position whose record has the old name, or none when no record has it |
| PresenceUpdates.RenameNotice | server.js:294-320 | the `onCName` fan-out: nothing without a matched record or with an empty `peerConnections`; otherwise each event goes to a registered key of `peerConnections` and names the last matched id, and with a truthy match every registered key is told |
| PresenceUpdates.CName | server.js:289-322 | every record in `peers[room_id]` named the old name gets the new name and nothing else changes; membership is untouched; anything is emitted only if some record matched and `peerConnections` is non-empty; each `onCName` goes to a registered key of `peerConnections` and names the last matched id; with a truthy match every registered key is told |
| PresenceUpdates.PeerStatus | server.js:325-369 | every name-matched record gets the video, audio or hand field set as `element` selects, and nothing else changes; membership is untouched; `onpeerStatus` carries the sender's id and reaches every registered key of a non-empty `peerConnections`, matched or not |
| Server.Step | server.js:103-371 | the eight-way dispatch: a connect registers the id with no rooms and emits nothing; a disconnect unregisters it, leaves it no rooms and emits only `removePeer` events with it on exactly one side; a `join` for a room already joined changes nothing and emits nothing, and otherwise puts the joiner in the room and emits two events per earlier member; no other event changes `sockets`; the relay and chat events change no store, and a relay emits one event exactly when its target is registered; `cName` and `peerStatus` leave room membership unchanged |
| Server.SameKeysKeepInv | server.js:297-347 | an update that keeps every key list, like `cName` or `peerStatus`, keeps the invariant |
| Server.StepKeepsInv | server.js:103-371 | every handler keeps the cross-store invariant for any event the transport can deliver: a connect with a fresh id, anything else from a registered connection |
| Server.RunKeepsInv | server.js:103-371 | the invariant holds after any deliverable sequence of events |
| Server.ReachableInv | server.js:13-15 | every state reachable from the empty stores satisfies the invariant |
| Server.LobbyFirstJoin | server.js:120-172 | a first join into an empty room emits nothing and records the joiner's presence |
| Server.LobbySecondJoin | server.js:144-171 | a second joiner gets one `addPeer` with offer true about the first; the first gets one with offer false about it; both rosters hold both records |
| Server.LobbyLeave | server.js:178-198 | the second joiner leaving tells each side about the other, leaves the first member alone in the room, and empties the leaver's `socket.channels` |
| Server.LobbyDisconnect | server.js:109-115 | the second joiner's disconnect tells each side about the other and leaves the room with the first member alone |
| PrototypeKeys.JoinAsWritten | server.js:129-132 | the join guard as written: a room named after an inherited `Object.prototype` property is always treated as already joined |
| PrototypeKeys.JoinAsWrittenKeepsInv | server.js:129-132 | the join guard as written also keeps the cross-store invariant; it only ever skips joins |
| PrototypeKeys.InheritedRoomNeverJoined | server.js:129-132 | for such a room the as-written join changes nothing and emits nothing, while the corrected join admits the connection |
| PrototypeKeys.ConstructorRoomExample | server.js:129-132 | concretely: a fresh connection joining "constructor" stays outside the room as written, and is its only member with the corrected guard |

## Left out

- HTTP static serving, the redirect routes, `server.listen` and the ngrok tunnel (server.js:25-54, 70-101). These are HTTP, network and external-process I/O.
- dotenv, environment variables and building `iceServers` (server.js:1, 11-22, 56-64). The list is an opaque parameter.
- All `console.log` output. This includes the `session_description.type` read at server.js:229, which only throws when the field is missing.
- The `async`/`await` in `removePeerFrom`. Every store change happens before the first `await`, so the model treats a leave as atomic. With several rooms, the real emit order is interleaved across rooms. `Membership.LeaveAll` lists each room's events as one block.
- socket.io delivery, ordering and serialisation. An emit is recorded, not delivered.
- JavaScript truthiness, `undefined` fields and loose `==`. `privateMsg` is a `bool`, and names are compared with structural equality. A missing `peerConnections` is not modelled; with it, `Object.keys` throws in `peerStatus` always, and in `cName` only when some record with a non-empty id matched (server.js:305 tests the matched id first). `peerConnections` is the list of its keys.
- Integer-like keys. `for…in` visits keys that look like array indices first, in numeric order. The model assumes insertion order for every key. Socket ids are never such keys, but room names can be, and that only changes the order of `disconnect`'s per-room emissions.
- Inherited `Object.prototype` names used as connection ids. With such an id, `peer_id in sockets` and `sockets[peer_id]` are true, and the handler then throws calling `.emit`. The model's relays treat such an id as unregistered and emit nothing, where server.js:212-213, 266-267 and 278-279 throw. Room names are covered under Findings.
- States that break the invariant. There `removePeerFrom` can meet a missing `channels[room]` or `peers[room]` and throw. The model reads a missing entry as empty, and `Server.ReachableInv` shows no reachable state is affected.
- Connection ids are assumed fresh on connect (`Server.Admissible`). socket.io never reuses a live id.
- Server.Step: dispatches `join` to the corrected own-key guard (`Membership.Join`), not to the guard as written at server.js:129-132. Rooms named after inherited `Object.prototype` properties are therefore joinable in `Step`, `StepKeepsInv`, `RunKeepsInv` and `ReachableInv`. The guard as written is `PrototypeKeys.JoinAsWritten`, and `PrototypeKeys.JoinAsWrittenKeepsInv` shows it keeps the invariant too (see Findings).
- Membership.Leave: the clause that the other records keep their values is stated when the room's roster keeps some key. That the leaver's record alone goes in every case needs the invariant, and is `Invariants.LeaveRecords`. `Membership.LeaveAll` and `Membership.Disconnect` state it the same way.

## Findings

| source | as written | input that shows it | evidently intended | confidence | as-written member | corrected member |
|---|---|---|---|---|---|---|
| server.js:129-132 | the duplicate-join guard is `channel in socket.channels` on a plain `{}`, and `in` also finds inherited `Object.prototype` names | a fresh connection joins room "constructor" (or "toString", "__proto__", …): the guard reports "already joined", and the connection never enters the room | only rooms the connection actually joined count as joined (an own-key test) | high; not executed | PrototypeKeys.InheritedRoomNeverJoined | Membership.Join |

=== FILE: findings.dfy ===
/** The duplicate-join guard as written.

    `channel in socket.channels` tests a plain object `{}`, and JavaScript's
    `in` also finds the properties every such object inherits from
    `Object.prototype`. A room whose name is one of them ("constructor",
    "toString", "__proto__", …) therefore looks joined already, and the join
    is dropped as a duplicate. The rest of the model, the server's step
    function included, uses the evidently intended own-key test
    (`Membership.Join`).
 */
module PrototypeKeys {
  import opened Store
  import opened Messages
  import opened Membership
  import opened Invariants

  /** The names a plain object inherits from `Object.prototype`. */
  const InheritedKeys: set<string> := {
    "constructor", "hasOwnProperty", "isPrototypeOf", "propertyIsEnumerable",
    "toLocaleString", "toString", "valueOf", "__proto__",
    "__defineGetter__", "__defineSetter__", "__lookupGetter__", "__lookupSetter__"
  }

  /** `key in obj` for a plain object whose own keys are `own`. */
  predicate InObject(own: seq<string>, key: string) {
    key in own || key in InheritedKeys
  }

  /** `join` with the guard exactly as written. Past the guard the handler is
      the same as the corrected one: an inherited name never gets there. */
  function JoinAsWritten(s: State, me: Id, room: Room, info: Presence, ice: Json): (r: (State, seq<Outbound>))
    ensures room in InheritedKeys ==> r == (s, [])
    ensures room !in InheritedKeys ==> r == Join(s, me, room, info, ice)
  {
    if InObject(Rooms(s, me), room) then (s, []) else Join(s, me, room, info, ice)
  }

  /** The join as written keeps the cross-store invariant: it is either the
      corrected join or no change at all. */
  lemma JoinAsWrittenKeepsInv(s: State, me: Id, room: Room, info: Presence, ice: Json)
    requires Inv(s)
    requires me in s.sockets
    ensures Inv(JoinAsWritten(s, me, room, info, ice).0)
  {
    if room !in InheritedKeys {
      JoinKeepsInv(s, me, room, info, ice);
    }
  }

  /** A connection that has never joined a room named after an inherited
      property still cannot join it: the join leaves it outside every store
      and introduces it to nobody, where the intended join admits it. */
  lemma InheritedRoomNeverJoined(s: State, me: Id, room: Room, info: Presence, ice: Json)
    requires room in InheritedKeys
    requires room !in Rooms(s, me)
    ensures var (s', out) := JoinAsWritten(s, me, room, info, ice);
            && s' == s && out == []
            && room !in Rooms(s', me)
    ensures room in Rooms(Join(s, me, room, info, ice).0, me)
  {
  }

  /** The smallest instance: a fresh connection "a" asks to join "constructor". */
  lemma ConstructorRoomExample(info: Presence, ice: Json)
    ensures var s := Connect(Init, "a");
            && JoinAsWritten(s, "a", "constructor", info, ice) == (s, [])
            && Members(JoinAsWritten(s, "a", "constructor", info, ice).0, "constructor") == []
            && Members(Join(s, "a", "constructor", info, ice).0, "constructor") == ["a"]
  {
    var s := Connect(Init, "a");
    assert "constructor" in InheritedKeys;
    assert Rooms(s, "a") == [];
  }
}

=== FILE: invariants.dfy ===
/** The cross-store invariant is kept by every membership handler, and a
    join followed by a leave of the same room undoes the join. */
module Invariants {
  import opened Seqs
  import opened Store
  import opened Messages
  import opened Membership

  /** A connect with a fresh id keeps the invariant. */
  lemma ConnectKeepsInv(s: State, me: Id)
    requires Inv(s)
    requires me !in s.sockets
    ensures Inv(Connect(s, me))
  {
    var s' := Connect(s, me);
    forall id, room
      ensures room in Rooms(s', id) <==> id in Members(s', room)
      ensures id in Members(s', room) <==> id in Roster(s', room).records
    {
      assert room in Rooms(s, id) <==> id in Members(s, room);
      assert id in Members(s, room) <==> id in Roster(s, room).records;
      if id == me {
        assert me !in s.joined;
      }
    }
  }

  /** A join by a registered connection keeps the invariant. */
  lemma JoinKeepsInv(s: State, me: Id, room: Room, info: Presence, ice: Json)
    requires Inv(s)
    requires me in s.sockets
    ensures Inv(Join(s, me, room, info, ice).0)
  {
    if room !in Rooms(s, me) {
      var s' := Join(s, me, room, info, ice).0;
      assert Members(s', room) == Insert(Members(s, room), me);
      assert Roster(s', room) == Put(Roster(s, room), me, info);
      assert Rooms(s', me) == Insert(Rooms(s, me), room);
      assert DistinctInv(s') by {
        assert Distinct(Members(s, room));
        assert WellFormed(Roster(s, room));
        assert Distinct(Rooms(s, me));
      }
      assert RosterInv(s') by {
        assert me in Roster(s', room).order;
      }
      forall id, r
        ensures room in Rooms(s', id) <==> id in Members(s', room)
        ensures r in Rooms(s', id) <==> id in Members(s', r)
        ensures id in Members(s', r) <==> id in Roster(s', r).records
      {
        assert r in Rooms(s, id) <==> id in Members(s, r);
        assert id in Members(s, r) <==> id in Roster(s, r).records;
        assert room in Rooms(s, id) <==> id in Members(s, room);
      }
    }
  }

  /** A leave keeps the invariant. */
  lemma LeaveKeepsInv(s: State, me: Id, room: Room)
    requires Inv(s)
    ensures Inv(Leave(s, me, room).0)
  {
    if room in Rooms(s, me) {
      LeaveKeepsDistinct(s, me, room);
      LeaveKeepsMembership(s, me, room);
    }
  }

  lemma LeaveKeepsDistinct(s: State, me: Id, room: Room)
    requires Inv(s)
    requires room in Rooms(s, me)
    ensures var s' := Leave(s, me, room).0;
            RegistryInv(s') && DistinctInv(s') && RosterInv(s')
  {
    var s' := Leave(s, me, room).0;
    assert me in s.joined;
    assert DistinctInv(s') by {
      assert Distinct(Members(s, room));
      assert WellFormed(Roster(s, room));
      assert Distinct(Rooms(s, me));
    }
  }

  lemma LeaveKeepsMembership(s: State, me: Id, room: Room)
    requires Inv(s)
    requires room in Rooms(s, me)
    ensures MembershipInv(Leave(s, me, room).0)
  {
    var s' := Leave(s, me, room).0;
    assert WellFormed(Roster(s, room));
    forall id, r
      ensures r in Rooms(s', id) <==> id in Members(s', r)
      ensures id in Members(s', r) <==> id in Roster(s', r).records
    {
      assert r in Rooms(s, id) <==> id in Members(s, r);
      assert id in Members(s, r) <==> id in Roster(s, r).records;
    }
  }

  /** Under the invariant a leave takes exactly the leaver's record out of
      `peers[room]` and leaves every other record as it was. */
  lemma LeaveRecords(s: State, me: Id, room: Room)
    requires Inv(s)
    requires room in Rooms(s, me)
    ensures Roster(Leave(s, me, room).0, room).records == Roster(s, room).records - {me}
  {
    var t := Roster(s, room);
    var t' := Roster(Leave(s, me, room).0, room);
    if |t'.order| == 0 {
      assert WellFormed(t);
      forall id | id in t.records ensures id == me {
        assert id in t.order;
        assert id in t'.order <==> id in t.order && id != me;
      }
      assert t.records - {me} == map[];
      assert t'.records == map[];
    }
  }

  /** Leaving a list of rooms keeps the invariant. */
  lemma {:induction false} LeaveAllKeepsInv(s: State, me: Id, rooms: seq<Room>)
    requires Inv(s)
    ensures Inv(LeaveAll(s, me, rooms).0)
    decreases |rooms|
  {
    if |rooms| > 0 {
      LeaveKeepsInv(s, me, rooms[0]);
      LeaveAllKeepsInv(Leave(s, me, rooms[0]).0, me, rooms[1..]);
    }
  }

  /** Disconnect cascade: after the leave loop the connection's
      `socket.channels` is empty and it is in no room's `channels` or
      `peers` entry; after the disconnect as a whole its id is gone from
      `sockets` as well, and the invariant still holds. */
  lemma DisconnectCleans(s: State, me: Id)
    requires Inv(s)
    ensures var s1 := LeaveAll(s, me, Rooms(s, me)).0;
            && Rooms(s1, me) == []
            && forall room :: me !in Members(s1, room) && me !in Roster(s1, room).records
    ensures var s' := Disconnect(s, me).0;
            && me !in s'.sockets
            && (forall room :: me !in Members(s', room) && me !in Roster(s', room).records)
            && Inv(s')
  {
    var s1 := LeaveAll(s, me, Rooms(s, me)).0;
    LeaveAllKeepsInv(s, me, Rooms(s, me));
    NothingInEmpty(Rooms(s1, me));
    forall room ensures me !in Members(s1, room) && me !in Roster(s1, room).records {
      assert room in Rooms(s1, me) <==> me in Members(s1, room);
    }
    var s' := Disconnect(s, me).0;
    assert s'.channels == s1.channels && s'.peers == s1.peers;
    forall id, room
      ensures room in Rooms(s', id) <==> id in Members(s', room)
      ensures id in Members(s', room) <==> id in Roster(s', room).records
      ensures me !in Members(s', room) && me !in Roster(s', room).records
    {
      assert Members(s', room) == Members(s1, room) && Roster(s', room) == Roster(s1, room);
      assert room in Rooms(s1, id) <==> id in Members(s1, room);
      assert id in Members(s1, room) <==> id in Roster(s1, room).records;
    }
    assert DistinctInv(s') by {
      assert forall id :: id in s'.joined ==> s'.joined[id] == s1.joined[id];
    }
  }

  /** The member counts of a list of rooms, summed. */
  function TotalMembers(s: State, rooms: seq<Room>): nat
    decreases |rooms|
  {
    if |rooms| == 0 then 0 else |Members(s, rooms[0])| + TotalMembers(s, rooms[1..])
  }

  /** How many rooms of a list have `m` among their members. */
  function RoomsWith(s: State, rooms: seq<Room>, m: Id): nat
    decreases |rooms|
  {
    if |rooms| == 0 then 0
    else (if m in Members(s, rooms[0]) then 1 else 0) + RoomsWith(s, rooms[1..], m)
  }

  /** Rooms whose member lists are unchanged have the same counts. */
  lemma {:induction false} RoomsWithFrame(s: State, s': State, rooms: seq<Room>, m: Id)
    requires forall room :: room in rooms ==> Members(s', room) == Members(s, room)
    ensures RoomsWith(s', rooms, m) == RoomsWith(s, rooms, m)
    decreases |rooms|
  {
    if |rooms| > 0 {
      assert rooms[0] in rooms;
      assert forall room :: room in rooms[1..] ==> room in rooms;
      RoomsWithFrame(s, s', rooms[1..], m);
    }
  }

  /** Rooms whose member lists are unchanged have the same total. */
  lemma {:induction false} TotalMembersFrame(s: State, s': State, rooms: seq<Room>)
    requires forall room :: room in rooms ==> Members(s', room) == Members(s, room)
    ensures TotalMembers(s', rooms) == TotalMembers(s, rooms)
    decreases |rooms|
  {
    if |rooms| > 0 {
      assert rooms[0] in rooms;
      assert forall room :: room in rooms[1..] ==> room in rooms;
      TotalMembersFrame(s, s', rooms[1..]);
    }
  }

  /** A leave that takes effect under the invariant removes exactly one id,
      the leaver, from `channels[room]`. */
  lemma LeaveShrinksRoom(s: State, me: Id, room: Room)
    requires Inv(s)
    requires room in Rooms(s, me)
    ensures var rest := Members(Leave(s, me, room).0, room);
            && |rest| == |Members(s, room)| - 1
            && forall m :: m in rest <==> m in Members(s, room) && m != me
  {
    var members := Members(s, room);
    assert me in members;
    assert room in s.channels;
    var k :| 0 <= k < |members| && members[k] == me;
    RemoveKeepsOrder(members, k);
  }

  /** `o` is one of the two `removePeer` events between a leaver `me` and a
      remaining member `m`. */
  predicate Parting(o: Outbound, me: Id, m: Id) {
    o == Outbound(m, RemovePeer(me)) || o == Outbound(me, RemovePeer(m))
  }

  /** What leaving the first of a list of distinct joined rooms sets up for
      the rest of the list. */
  lemma LeaveStep(s: State, me: Id, rooms: seq<Room>)
    requires Inv(s)
    requires Distinct(rooms) && |rooms| > 0
    requires forall room :: room in rooms ==> room in Rooms(s, me)
    ensures var (s1, out1) := Leave(s, me, rooms[0]);
            && Inv(s1)
            && Distinct(rooms[1..])
            && (forall r :: r in rooms[1..] ==>
                  r in rooms && r != rooms[0] && r in Rooms(s1, me) && Members(s1, r) == Members(s, r))
            && LeaveAll(s, me, rooms).1 == out1 + LeaveAll(s1, me, rooms[1..]).1
            && out1 == Farewells(Members(s1, rooms[0]), me)
            && |Members(s1, rooms[0])| == |Members(s, rooms[0])| - 1
            && (forall m :: m in Members(s1, rooms[0]) <==> m in Members(s, rooms[0]) && m != me)
  {
    var room := rooms[0];
    var tail := rooms[1..];
    LeaveKeepsInv(s, me, room);
    LeaveShrinksRoom(s, me, room);
    DistinctTail(rooms);
    forall r | r in tail ensures r in rooms && r != room {
      var j :| 0 <= j < |tail| && tail[j] == r;
      assert rooms[j + 1] == r;
    }
  }

  /** Both partings between `me` and `m` are among the events `out`. */
  predicate Told(out: seq<Outbound>, me: Id, m: Id) {
    Outbound(m, RemovePeer(me)) in out && Outbound(me, RemovePeer(m)) in out
  }

  /** Leaving a list of distinct joined rooms tells each remaining member of
      each room about the leaver, and the leaver about each of them. */
  lemma {:induction false} LeaveAllCovers(s: State, me: Id, rooms: seq<Room>)
    requires Inv(s)
    requires Distinct(rooms)
    requires forall room :: room in rooms ==> room in Rooms(s, me)
    ensures forall room, m :: room in rooms && m in Members(s, room) && m != me ==>
              Told(LeaveAll(s, me, rooms).1, me, m)
    decreases |rooms|
  {
    if |rooms| > 0 {
      LeaveStep(s, me, rooms);
      var (s1, out1) := Leave(s, me, rooms[0]);
      var out2 := LeaveAll(s1, me, rooms[1..]).1;
      var out := LeaveAll(s, me, rooms).1;
      FarewellsPairs(Members(s1, rooms[0]), me);
      LeaveAllCovers(s1, me, rooms[1..]);
      forall r, m | r in rooms && m in Members(s, r) && m != me
        ensures Told(out, me, m)
      {
        if r == rooms[0] {
          assert m in Members(s1, rooms[0]);
          ToldAppend(out1, out2, me, m);
        } else {
          assert r in rooms[1..];
          assert Told(out2, me, m);
          ToldAppend(out1, out2, me, m);
        }
      }
    }
  }

  lemma ToldAppend(out1: seq<Outbound>, out2: seq<Outbound>, me: Id, m: Id)
    ensures Told(out1, me, m) || Told(out2, me, m) ==> Told(out1 + out2, me, m)
  {
  }

  /** Leaving a list of distinct joined rooms sends nothing but those
      partings. */
  lemma {:induction false} LeaveAllOnlyPartings(s: State, me: Id, rooms: seq<Room>)
    requires Inv(s)
    requires Distinct(rooms)
    requires forall room :: room in rooms ==> room in Rooms(s, me)
    ensures forall o :: o in LeaveAll(s, me, rooms).1 ==>
              exists room, m :: room in rooms && m in Members(s, room) && m != me && Parting(o, me, m)
    decreases |rooms|
  {
    if |rooms| > 0 {
      LeaveStep(s, me, rooms);
      var (s1, out1) := Leave(s, me, rooms[0]);
      var rest := Members(s1, rooms[0]);
      FarewellsPairs(rest, me);
      LeaveAllOnlyPartings(s1, me, rooms[1..]);
      forall o | o in LeaveAll(s, me, rooms).1
        ensures exists room, m :: room in rooms && m in Members(s, room) && m != me && Parting(o, me, m)
      {
        if o in out1 {
          var m :| m in rest && Parting(o, me, m);
          assert rooms[0] in rooms && m in Members(s, rooms[0]);
        } else {
          var r, m :| r in rooms[1..] && m in Members(s1, r) && m != me && Parting(o, me, m);
          assert r in rooms && m in Members(s, r);
        }
      }
    }
  }

  /** Leaving a list of distinct joined rooms sends two events per remaining
      member of each room. */
  lemma {:induction false} LeaveAllCount(s: State, me: Id, rooms: seq<Room>)
    requires Inv(s)
    requires Distinct(rooms)
    requires forall room :: room in rooms ==> room in Rooms(s, me)
    ensures |LeaveAll(s, me, rooms).1| == 2 * (TotalMembers(s, rooms) - |rooms|)
    decreases |rooms|
  {
    if |rooms| > 0 {
      LeaveStep(s, me, rooms);
      var s1 := Leave(s, me, rooms[0]).0;
      FarewellsShape(Members(s1, rooms[0]), me);
      LeaveAllCount(s1, me, rooms[1..]);
      TotalMembersFrame(s, s1, rooms[1..]);
    }
  }

  /** Leaving a list of distinct joined rooms tells another member about the
      leaver, and the leaver about it, once per listed room they share. */
  lemma {:induction false} LeaveAllCopies(s: State, me: Id, rooms: seq<Room>, m: Id)
    requires Inv(s)
    requires Distinct(rooms)
    requires forall room :: room in rooms ==> room in Rooms(s, me)
    requires m != me
    ensures multiset(LeaveAll(s, me, rooms).1)[Outbound(m, RemovePeer(me))] == RoomsWith(s, rooms, m)
    ensures multiset(LeaveAll(s, me, rooms).1)[Outbound(me, RemovePeer(m))] == RoomsWith(s, rooms, m)
    decreases |rooms|
  {
    if |rooms| > 0 {
      LeaveStep(s, me, rooms);
      var s1 := Leave(s, me, rooms[0]).0;
      var rest := Members(s1, rooms[0]);
      assert rooms[0] in s1.channels;
      assert Distinct(rest) && me !in rest;
      FarewellsCopies(rest, me, m);
      LeaveAllCopies(s1, me, rooms[1..], m);
      RoomsWithFrame(s, s1, rooms[1..], m);
    }
  }

  /** Disconnect fan-out: for every room the connection had joined, each
      other member learns that it left and it learns of each other member;
      nothing else is sent; that is two events per other member per room. */
  lemma DisconnectFanOut(s: State, me: Id)
    requires Inv(s)
    ensures forall room, m :: room in Rooms(s, me) && m in Members(s, room) && m != me ==>
              Told(Disconnect(s, me).1, me, m)
    ensures forall o :: o in Disconnect(s, me).1 ==>
              exists room, m :: room in Rooms(s, me) && m in Members(s, room) && m != me && Parting(o, me, m)
    ensures |Disconnect(s, me).1| == 2 * (TotalMembers(s, Rooms(s, me)) - |Rooms(s, me)|)
    ensures forall m :: m != me ==>
              && multiset(Disconnect(s, me).1)[Outbound(m, RemovePeer(me))] == RoomsWith(s, Rooms(s, me), m)
              && multiset(Disconnect(s, me).1)[Outbound(me, RemovePeer(m))] == RoomsWith(s, Rooms(s, me), m)
  {
    var rooms := Rooms(s, me);
    assert Distinct(rooms);
    assert Disconnect(s, me).1 == LeaveAll(s, me, rooms).1;
    LeaveAllCovers(s, me, rooms);
    LeaveAllOnlyPartings(s, me, rooms);
    LeaveAllCount(s, me, rooms);
    forall m | m != me
      ensures && multiset(Disconnect(s, me).1)[Outbound(m, RemovePeer(me))] == RoomsWith(s, rooms, m)
              && multiset(Disconnect(s, me).1)[Outbound(me, RemovePeer(m))] == RoomsWith(s, rooms, m)
    {
      LeaveAllCopies(s, me, rooms, m);
    }
  }

  /** Join/leave round trip: a join into a room the connection had not
      joined, followed by the leave of that room, restores `peers`,
      `socket.channels` and `sockets` exactly, and `channels` up to an
      (empty) entry for a room that had none. */
  lemma JoinThenLeave(s: State, me: Id, room: Room, info: Presence, ice: Json)
    requires Inv(s)
    requires me in s.sockets
    requires room !in Rooms(s, me)
    ensures var s2 := Leave(Join(s, me, room, info, ice).0, me, room).0;
            && s2.sockets == s.sockets
            && s2.joined == s.joined
            && s2.peers == s.peers
            && s2.channels == s.channels[room := Members(s, room)]
            && (room in s.channels ==> s2.channels == s.channels)
  {
    assert room in Rooms(s, me) <==> me in Members(s, room);
    assert me in Members(s, room) <==> me in Roster(s, room).records;
    assert WellFormed(Roster(s, room));
    JoinThenLeaveFresh(s, me, room, info, ice);
  }

  /** The round trip, from just the facts about `me` and `room` it needs. */
  lemma JoinThenLeaveFresh(s: State, me: Id, room: Room, info: Presence, ice: Json)
    requires me in s.joined
    requires room !in Rooms(s, me)
    requires me !in Members(s, room) && me !in Roster(s, room).records && me !in Roster(s, room).order
    requires room in s.peers ==> |s.peers[room].order| > 0
    ensures var s2 := Leave(Join(s, me, room, info, ice).0, me, room).0;
            && s2.sockets == s.sockets
            && s2.joined == s.joined
            && s2.peers == s.peers
            && s2.channels == s.channels[room := Members(s, room)]
            && (room in s.channels ==> s2.channels == s.channels)
  {
    var s1 := FreshJoin(s, me, room, info, ice);
    LeaveAfterFreshJoin(s, s1, me, room, info);
  }

  /** The stores right after a join into a room the connection is not in. */
  lemma FreshJoin(s: State, me: Id, room: Room, info: Presence, ice: Json) returns (s1: State)
    requires room !in Rooms(s, me)
    requires me !in Members(s, room) && me !in Roster(s, room).records && me !in Roster(s, room).order
    ensures s1 == Join(s, me, room, info, ice).0
    ensures s1 == JoinedState(s, me, room, info)
  {
    s1 := Join(s, me, room, info, ice).0;
  }

  /** The stores right after a fresh join, written out. */
  function JoinedState(s: State, me: Id, room: Room, info: Presence): State {
    State(s.sockets,
          s.channels[room := Members(s, room) + [me]],
          s.peers[room := Put(Roster(s, room), me, info)],
          s.joined[me := Rooms(s, me) + [room]])
  }

  /** Leaving right after that join removes exactly what it added. */
  lemma LeaveAfterFreshJoin(s: State, s1: State, me: Id, room: Room, info: Presence)
    requires me in s.joined
    requires room !in Rooms(s, me)
    requires me !in Members(s, room) && me !in Roster(s, room).records && me !in Roster(s, room).order
    requires room in s.peers ==> |s.peers[room].order| > 0
    requires s1.sockets == s.sockets
    requires s1.channels == s.channels[room := Members(s, room) + [me]]
    requires s1.peers == s.peers[room := Put(Roster(s, room), me, info)]
    requires s1.joined == s.joined[me := Rooms(s, me) + [room]]
    ensures var s2 := Leave(s1, me, room).0;
            && s2.sockets == s.sockets
            && s2.joined == s.joined
            && s2.peers == s.peers
            && s2.channels == s.channels[room := Members(s, room)]
  {
    LeaveJoined(s1, me, room, s.joined);
    LeaveChannels(s1, me, room, s.channels);
    LeavePeers(s1, me, room, s.peers, info);
  }

  /** Leaving the room a connection joined last gives back the earlier
      `joined` map. */
  lemma LeaveJoined(s1: State, me: Id, room: Room, joined: map<Id, seq<Room>>)
    requires me in joined && room !in joined[me]
    requires s1.joined == joined[me := joined[me] + [room]]
    ensures Leave(s1, me, room).0.joined == joined
  {
    var before := joined[me];
    assert room in Rooms(s1, me);
    assert Insert(before, room) == before + [room];
    RemoveInsertFresh(before, room);
    assert joined[me := before + [room]][me := before] == joined;
  }

  /** Leaving a room the connection entered last gives back the earlier
      `channels[room]`, or an empty entry where there was none. */
  lemma LeaveChannels(s1: State, me: Id, room: Room, channels: map<Room, seq<Id>>)
    requires room in Rooms(s1, me)
    requires var before := if room in channels then channels[room] else [];
             && me !in before
             && s1.channels == channels[room := before + [me]]
    ensures var before := if room in channels then channels[room] else [];
            Leave(s1, me, room).0.channels == channels[room := before]
  {
    var before := if room in channels then channels[room] else [];
    assert Insert(before, me) == before + [me];
    RemoveInsertFresh(before, me);
    assert channels[room := before + [me]][room := before] == channels[room := before];
  }

  /** Leaving a room whose roster got the leaver's record last gives back the
      earlier `peers`, without the entry if the join created it. */
  lemma LeavePeers(s1: State, me: Id, room: Room, peers: map<Room, PeerTable>, info: Presence)
    requires room in Rooms(s1, me)
    requires var before := if room in peers then peers[room] else EmptyTable;
             && me !in before.records && me !in before.order
             && (room in peers ==> |before.order| > 0)
             && s1.peers == peers[room := Put(before, me, info)]
    ensures Leave(s1, me, room).0.peers == peers
  {
    var before := if room in peers then peers[room] else EmptyTable;
    DeletePut(before, me, info);
    assert Roster(s1, room) == Put(before, me, info);
    if room in peers {
      assert peers[room := Put(before, me, info)][room := before] == peers;
    } else {
      assert peers[room := Put(before, me, info)] - {room} == peers;
    }
  }

  /** Deleting a record just put under a fresh key gives back the table. */
  lemma DeletePut(t: PeerTable, me: Id, info: Presence)
    requires me !in t.records && me !in t.order
    ensures Delete(Put(t, me, info), me) == t
  {
    RemoveInsertFresh(t.order, me);
    assert t.records[me := info] - {me} == t.records;
  }
}

=== FILE: membership.dfy ===
/** Connection lifecycle and room membership: the `connect` handler, `join`,
    `removePeerFrom` and `disconnect` (server.js:103-198).

    Each handler is a pure function from the stores before the event to the
    stores after it together with the events it emits, in emission order.
 */
module Membership {
  import opened Seqs
  import opened Store
  import opened Messages

  /** The `connect` handler (server.js:106-107): the connection is
      registered with an empty set of joined rooms; no room changes. */
  function Connect(s: State, me: Id): (r: State)
    ensures r.sockets == s.sockets + {me}
    ensures me in r.joined && Rooms(r, me) == []
    ensures r.channels == s.channels && r.peers == s.peers
    ensures forall id :: id != me ==> Rooms(r, id) == Rooms(s, id)
  {
    s.(sockets := s.sockets + {me}, joined := s.joined[me := []])
  }

  /** The `addPeer` pairs of a join, one pair per member present before it:
      the member is told about the joiner (it will answer), the joiner is
      told about the member (it will make the offer). */
  function Introductions(members: seq<Id>, me: Id, roster: PeerTable, ice: Json): seq<Outbound>
    decreases |members|
  {
    if |members| == 0 then []
    else
      [Outbound(members[0], AddPeer(me, roster, false, ice)),
       Outbound(me, AddPeer(members[0], roster, true, ice))]
      + Introductions(members[1..], me, roster, ice)
  }

  /** The `join` handler (server.js:120-172), with `ice` the configured `iceServers`.
      A connection that has the room in `socket.channels` already is ignored;
      otherwise its record goes into `peers[room]`, every earlier member and
      the joiner are introduced to each other, and only then does the joiner
      enter `channels[room]` and its own `socket.channels`. */
  function Join(s: State, me: Id, room: Room, info: Presence, ice: Json): (r: (State, seq<Outbound>))
    ensures room in Rooms(s, me) ==> r == (s, [])
    ensures room !in Rooms(s, me) ==>
              && room in Rooms(r.0, me)
              && me in Members(r.0, room)
              && me in Roster(r.0, room).records && Roster(r.0, room).records[me] == info
    ensures r.0.sockets == s.sockets
    ensures room in s.channels ==> room in r.0.channels
    ensures forall other :: other != room ==>
              Members(r.0, other) == Members(s, other) && Roster(r.0, other) == Roster(s, other)
    ensures forall id :: id != me ==> Rooms(r.0, id) == Rooms(s, id)
  {
    if room in Rooms(s, me) then (s, [])
    else
      var roster := Put(Roster(s, room), me, info);
      var s' := s.(channels := s.channels[room := Insert(Members(s, room), me)],
                   peers := s.peers[room := roster],
                   joined := s.joined[me := Insert(Rooms(s, me), room)]);
      (s', Introductions(Members(s, room), me, roster, ice))
  }

  /** The `removePeer` pairs of a leave, one pair per member still in the room. */
  function Farewells(rest: seq<Id>, me: Id): (out: seq<Outbound>)
    ensures me !in rest ==>
              forall o :: o in out ==> o.msg.RemovePeer? && ((o.to == me) != (o.msg.peerId == me))
    decreases |rest|
  {
    if |rest| == 0 then []
    else [Outbound(rest[0], RemovePeer(me)), Outbound(me, RemovePeer(rest[0]))] + Farewells(rest[1..], me)
  }

  /** `removePeerFrom(room)` of connection `me` (server.js:178-198). A room
      not in `socket.channels` is ignored. Otherwise `me` leaves all three
      stores, `peers[room]` is deleted once no record is left (the
      `channels[room]` entry is kept, possibly empty), and each remaining
      member and the leaver are told about each other. */
  function Leave(s: State, me: Id, room: Room): (r: (State, seq<Outbound>))
    ensures room !in Rooms(s, me) ==> r == (s, [])
    ensures r.0.sockets == s.sockets
    ensures room in s.channels ==> room in r.0.channels
    ensures room in Rooms(s, me) ==>
              && room !in Rooms(r.0, me)
              && me !in Members(r.0, room)
              && me !in Roster(r.0, room).records
              && (room in r.0.peers <==> exists id :: id in Roster(s, room).order && id != me)
              && Rooms(r.0, me) == Remove(Rooms(s, me), room)
              && Members(r.0, room) == Remove(Members(s, room), me)
              && Roster(r.0, room).order == Remove(Roster(s, room).order, me)
              && (|Roster(r.0, room).order| > 0 ==> Roster(r.0, room).records == Roster(s, room).records - {me})
    ensures forall other :: other != room ==>
              Members(r.0, other) == Members(s, other) && Roster(r.0, other) == Roster(s, other)
    ensures forall id :: id != me ==> Rooms(r.0, id) == Rooms(s, id)
    ensures forall x :: x in Rooms(r.0, me) <==> x in Rooms(s, me) && x != room
    ensures forall o :: o in r.1 ==> o.msg.RemovePeer? && ((o.to == me) != (o.msg.peerId == me))
  {
    if room !in Rooms(s, me) then (s, [])
    else
      var rest := Remove(Members(s, room), me);
      var roster := Delete(Roster(s, room), me);
      var s' := s.(joined := s.joined[me := Remove(Rooms(s, me), room)],
                   channels := s.channels[room := rest],
                   peers := if |roster.order| == 0 then s.peers - {room} else s.peers[room := roster]);
      assert |roster.order| > 0 ==> roster.order[0] in roster.order;
      (s', Farewells(rest, me))
  }

  /** The leave loop of the `disconnect` handler (server.js:110-112): each
      joined room is left in turn, walking a snapshot of the room list (each
      leave deletes only the room being visited). */
  function LeaveAll(s: State, me: Id, rooms: seq<Room>): (r: (State, seq<Outbound>))
    ensures r.0.sockets == s.sockets
    ensures forall room :: room in Rooms(r.0, me) <==> room in Rooms(s, me) && room !in rooms
    ensures forall id :: id != me ==> Rooms(r.0, id) == Rooms(s, id)
    ensures forall room :: room !in rooms || room !in Rooms(s, me) ==>
              Members(r.0, room) == Members(s, room) && Roster(r.0, room) == Roster(s, room)
    ensures forall room :: room in rooms && room in Rooms(s, me) ==>
              && Members(r.0, room) == Remove(Members(s, room), me)
              && Roster(r.0, room).order == Remove(Roster(s, room).order, me)
              && (|Roster(r.0, room).order| > 0 ==> Roster(r.0, room).records == Roster(s, room).records - {me})
    ensures forall room :: room in s.channels ==> room in r.0.channels
    ensures forall o :: o in r.1 ==> o.msg.RemovePeer? && ((o.to == me) != (o.msg.peerId == me))
    decreases |rooms|
  {
    if |rooms| == 0 then (s, [])
    else
      var (s1, out1) := Leave(s, me, rooms[0]);
      var (s2, out2) := LeaveAll(s1, me, rooms[1..]);
      assert forall room :: room in rooms ==> room == rooms[0] || room in rooms[1..];
      (s2, out1 + out2)
  }

  /** The `disconnect` handler (server.js:109-115): leave every joined room,
      then drop the connection from `sockets` (its `socket.channels` object
      goes with it). */
  function Disconnect(s: State, me: Id): (r: (State, seq<Outbound>))
    ensures r.0.sockets == s.sockets - {me}
    ensures me !in r.0.joined && Rooms(r.0, me) == []
    ensures forall id :: id != me ==> Rooms(r.0, id) == Rooms(s, id)
    ensures forall room :: room !in Rooms(s, me) ==>
              Members(r.0, room) == Members(s, room) && Roster(r.0, room) == Roster(s, room)
    ensures forall room :: room in Rooms(s, me) ==>
              && Members(r.0, room) == Remove(Members(s, room), me)
              && Roster(r.0, room).order == Remove(Roster(s, room).order, me)
              && (|Roster(r.0, room).order| > 0 ==> Roster(r.0, room).records == Roster(s, room).records - {me})
    ensures forall o :: o in r.1 ==> o.msg.RemovePeer? && ((o.to == me) != (o.msg.peerId == me))
  {
    var (s1, out) := LeaveAll(s, me, Rooms(s, me));
    var s2 := s1.(sockets := s1.sockets - {me}, joined := s1.joined - {me});
    assert forall room :: Members(s2, room) == Members(s1, room) && Roster(s2, room) == Roster(s1, room);
    (s2, out)
  }

  /** The emissions of a join, position by position: 2n events for n earlier
      members, pair i being "member i learns of the joiner, as answerer"
      followed by "the joiner learns of member i, as offerer". */
  lemma {:induction false} IntroductionsShape(members: seq<Id>, me: Id, roster: PeerTable, ice: Json)
    ensures |Introductions(members, me, roster, ice)| == 2 * |members|
    ensures forall i :: 0 <= i < |members| ==>
              && Introductions(members, me, roster, ice)[2 * i] == Outbound(members[i], AddPeer(me, roster, false, ice))
              && Introductions(members, me, roster, ice)[2 * i + 1] == Outbound(me, AddPeer(members[i], roster, true, ice))
    decreases |members|
  {
    if |members| > 0 {
      IntroductionsShape(members[1..], me, roster, ice);
      var out := Introductions(members, me, roster, ice);
      var rest := Introductions(members[1..], me, roster, ice);
      forall i | 0 <= i < |members|
        ensures out[2 * i] == Outbound(members[i], AddPeer(me, roster, false, ice))
        ensures out[2 * i + 1] == Outbound(me, AddPeer(members[i], roster, true, ice))
      {
        if i > 0 {
          assert members[i] == members[1..][i - 1];
          assert out[2 * i] == rest[2 * (i - 1)];
          assert out[2 * i + 1] == rest[2 * (i - 1) + 1];
        }
      }
    }
  }

  /** The emissions of a leave, position by position, as for a join. */
  lemma {:induction false} FarewellsShape(rest: seq<Id>, me: Id)
    ensures |Farewells(rest, me)| == 2 * |rest|
    ensures forall i :: 0 <= i < |rest| ==>
              && Farewells(rest, me)[2 * i] == Outbound(rest[i], RemovePeer(me))
              && Farewells(rest, me)[2 * i + 1] == Outbound(me, RemovePeer(rest[i]))
    decreases |rest|
  {
    if |rest| > 0 {
      FarewellsShape(rest[1..], me);
      var out := Farewells(rest, me);
      var tail := Farewells(rest[1..], me);
      assert out == [Outbound(rest[0], RemovePeer(me)), Outbound(me, RemovePeer(rest[0]))] + tail;
      forall i | 0 <= i < |rest|
        ensures out[2 * i] == Outbound(rest[i], RemovePeer(me))
        ensures out[2 * i + 1] == Outbound(me, RemovePeer(rest[i]))
      {
        if i > 0 {
          assert rest[i] == rest[1..][i - 1];
          assert out[2 * i] == tail[2 * (i - 1)];
          assert out[2 * i + 1] == tail[2 * (i - 1) + 1];
        }
      }
    }
  }

  /** The emissions of a leave, as a set: both directions for every
      remaining member, and nothing else. */
  lemma {:induction false} FarewellsPairs(rest: seq<Id>, me: Id)
    ensures forall m :: m in rest ==>
              Outbound(m, RemovePeer(me)) in Farewells(rest, me) && Outbound(me, RemovePeer(m)) in Farewells(rest, me)
    ensures forall o :: o in Farewells(rest, me) ==>
              exists m :: m in rest && (o == Outbound(m, RemovePeer(me)) || o == Outbound(me, RemovePeer(m)))
    decreases |rest|
  {
    if |rest| > 0 {
      FarewellsPairs(rest[1..], me);
      var tail := Farewells(rest[1..], me);
      assert Farewells(rest, me) == [Outbound(rest[0], RemovePeer(me)), Outbound(me, RemovePeer(rest[0]))] + tail;
      assert forall m :: m in rest ==> m == rest[0] || m in rest[1..];
      forall o | o in tail
        ensures exists m :: m in rest && (o == Outbound(m, RemovePeer(me)) || o == Outbound(me, RemovePeer(m)))
      {
        var m :| m in rest[1..] && (o == Outbound(m, RemovePeer(me)) || o == Outbound(me, RemovePeer(m)));
        assert m in rest;
      }
    }
  }

  /** How often each parting occurs among the leave emissions: once each way
      for a remaining member, never for anyone else. */
  lemma {:induction false} FarewellsCopies(rest: seq<Id>, me: Id, m: Id)
    requires Distinct(rest) && me !in rest && m != me
    ensures multiset(Farewells(rest, me))[Outbound(m, RemovePeer(me))] == (if m in rest then 1 else 0)
    ensures multiset(Farewells(rest, me))[Outbound(me, RemovePeer(m))] == (if m in rest then 1 else 0)
    decreases |rest|
  {
    if |rest| > 0 {
      DistinctTail(rest);
      assert forall x :: x in rest <==> x == rest[0] || x in rest[1..];
      FarewellsCopies(rest[1..], me, m);
      var pair := [Outbound(rest[0], RemovePeer(me)), Outbound(me, RemovePeer(rest[0]))];
      assert Farewells(rest, me) == pair + Farewells(rest[1..], me);
    }
  }

  /** Join fan-out: a join into a room with n earlier members emits exactly
      2n `addPeer` events — none into an empty room — each earlier member
      receiving one that names the joiner with `should_create_offer = false`
      and the joiner one per earlier member, naming it, with
      `should_create_offer = true`; every roster sent already holds the
      joiner's record. */
  lemma JoinFanOut(s: State, me: Id, room: Room, info: Presence, ice: Json)
    requires room !in Rooms(s, me)
    ensures var (s', out) := Join(s, me, room, info, ice);
            var pre := Members(s, room);
            && |out| == 2 * |pre|
            && me in Roster(s', room).records && Roster(s', room).records[me] == info
            && forall i :: 0 <= i < |pre| ==>
                 && out[2 * i] == Outbound(pre[i], AddPeer(me, Roster(s', room), false, ice))
                 && out[2 * i + 1] == Outbound(me, AddPeer(pre[i], Roster(s', room), true, ice))
  {
    var (s', out) := Join(s, me, room, info, ice);
    IntroductionsShape(Members(s, room), me, Roster(s', room), ice);
  }

  /** Leave fan-out: a leave that takes effect emits exactly two `removePeer`
      events per member left in `channels[room]`: the member learns the
      leaver's id and the leaver learns the member's id. The leaver is not
      among those members. */
  lemma LeaveFanOut(s: State, me: Id, room: Room)
    requires room in Rooms(s, me)
    ensures var (s', out) := Leave(s, me, room);
            var rest := Members(s', room);
            && me !in rest
            && (forall id :: id in rest <==> id in Members(s, room) && id != me)
            && |out| == 2 * |rest|
            && forall i :: 0 <= i < |rest| ==>
                 && out[2 * i] == Outbound(rest[i], RemovePeer(me))
                 && out[2 * i + 1] == Outbound(me, RemovePeer(rest[i]))
  {
    var (s', out) := Leave(s, me, room);
    FarewellsShape(Members(s', room), me);
  }

  /** The offer/answer tie-break of a join: every event sent to the joiner
      sets `should_create_offer` and names an earlier member; every event sent
      to anyone else clears it, goes to an earlier member and names the joiner. */
  lemma JoinRoles(s: State, me: Id, room: Room, info: Presence, ice: Json)
    requires room !in Rooms(s, me)
    requires me !in Members(s, room)
    ensures var out := Join(s, me, room, info, ice).1;
            forall o :: o in out ==>
              && o.msg.AddPeer?
              && (o.to == me <==> o.msg.shouldCreateOffer)
              && (o.to == me ==> o.msg.peerId in Members(s, room))
              && (o.to != me ==> o.to in Members(s, room) && o.msg.peerId == me)
  {
    var (s', out) := Join(s, me, room, info, ice);
    var pre := Members(s, room);
    JoinFanOut(s, me, room, info, ice);
    forall o | o in out
      ensures && o.msg.AddPeer?
              && (o.to == me <==> o.msg.shouldCreateOffer)
              && (o.to == me ==> o.msg.peerId in pre)
              && (o.to != me ==> o.to in pre && o.msg.peerId == me)
    {
      var k :| 0 <= k < |out| && out[k] == o;
      var i := k / 2;
      assert 0 <= i < |pre|;
      assert pre[i] in pre;
      if k % 2 == 0 {
        assert k == 2 * i;
        assert o == Outbound(pre[i], AddPeer(me, Roster(s', room), false, ice));
      } else {
        assert k == 2 * i + 1;
        assert o == Outbound(me, AddPeer(pre[i], Roster(s', room), true, ice));
      }
    }
  }
}

=== FILE: messages.dfy ===
/** Outbound events and the fan-out to a client-supplied recipient list.

    Every emit in server.js is fire-and-forget, so a handler's effect on the
    outside world is just the list of (target connection, event) pairs it
    emits, in emission order.
 */
module Messages {
  import opened Seqs
  import opened Store

  /** The seven outbound event kinds with their payload fields. */
  datatype Message =
    | AddPeer(peerId: Id, roster: PeerTable, shouldCreateOffer: bool, iceServers: Json)
    | RemovePeer(peerId: Id)
    | IceCandidate(peerId: Id, candidate: Json)
    | SessionDescription(peerId: Id, description: Json)
    | OnMessage(peerId: Id, privateMsg: bool, name: Json, msg: Json)
    | OnCName(peerId: Id, peerName: Json)
    | OnPeerStatus(peerId: Id, element: Json, status: Json)

  /** `sockets[to].emit(kind, fields)`. */
  datatype Outbound = Outbound(to: Id, msg: Message)

  /** The recipients of a list of emits, in order. */
  function Targets(out: seq<Outbound>): (ts: seq<Id>)
    ensures |ts| == |out|
    ensures forall i :: 0 <= i < |out| ==> ts[i] == out[i].to
  {
    seq(|out|, i requires 0 <= i < |out| => out[i].to)
  }

  /** Emitting to one target iff it is registered: the point-to-point send of
      `relayICE`, `relaySDP` and a private `msg`. */
  function SendIfPresent(live: set<Id>, to: Id, m: Message): (out: seq<Outbound>)
    ensures |out| <= 1
    ensures |out| == 1 <==> to in live
    ensures forall o :: o in out ==> o == Outbound(to, m)
  {
    if to in live then [Outbound(to, m)] else []
  }

  /** The public fan-out of `msg`, `cName` and `peerStatus` (server.js:277-286):
      the keys of the client's list that are registered connections get the
      message in list order, once per occurrence, and nobody else gets anything. */
  function Broadcast(keys: seq<Id>, live: set<Id>, m: Message): (out: seq<Outbound>)
    ensures |out| <= |keys|
    ensures Targets(out) == Only(keys, live)
    ensures forall o :: o in out ==> o.msg == m && o.to in live && o.to in keys
    ensures forall k :: k in live ==> multiset(Targets(out))[k] == multiset(keys)[k]
    ensures forall k :: k !in live ==> multiset(Targets(out))[k] == 0
    decreases |keys|
  {
    if |keys| == 0 then []
    else
      var rest := Broadcast(keys[1..], live, m);
      SplitHead(keys);
      if keys[0] in live then
        TargetsCons(Outbound(keys[0], m), rest);
        [Outbound(keys[0], m)] + rest
      else
        rest
  }

  lemma SplitHead(keys: seq<Id>)
    requires |keys| > 0
    ensures multiset(keys) == multiset{keys[0]} + multiset(keys[1..])
    ensures forall k :: k in keys[1..] ==> k in keys
  {
    assert keys == [keys[0]] + keys[1..];
  }

  lemma TargetsCons(o: Outbound, rest: seq<Outbound>)
    ensures Targets([o] + rest) == [o.to] + Targets(rest)
    ensures multiset(Targets([o] + rest)) == multiset{o.to} + multiset(Targets(rest))
  {
    assert Targets([o] + rest) == [o.to] + Targets(rest);
  }
}

=== FILE: presence.dfy ===
/** Presence updates: the `cName` (rename) and `peerStatus` handlers
    (server.js:289-369). Both look records up by display name, not by id,
    and both fan out to the client's own `peerConnections` list. */
module PresenceUpdates {
  import opened Seqs
  import opened Store
  import opened Messages

  datatype Option<T> = None | Some(value: T)

  /** The record under `id` exists and its `peer_name` equals `name`. */
  predicate NameIs(t: PeerTable, id: Id, name: Json) {
    id in t.records && t.records[id].name == name
  }

  /** Position `i` of the key list is the last one whose record is named `name`. */
  ghost predicate IsLastMatch(t: PeerTable, name: Json, i: int) {
    && 0 <= i < |t.order|
    && NameIs(t, t.order[i], name)
    && forall j :: i < j < |t.order| ==> !NameIs(t, t.order[j], name)
  }

  /** The last position below `n` whose record is named `name`: the value
      `peer_id_to_update` holds after the `cName` loop. */
  function LastMatch(t: PeerTable, name: Json, n: nat): (r: Option<nat>)
    requires n <= |t.order|
    ensures r.Some? ==>
              && r.value < n
              && NameIs(t, t.order[r.value], name)
              && forall j :: r.value < j < n ==> !NameIs(t, t.order[j], name)
    ensures r.None? ==> forall j :: 0 <= j < n ==> !NameIs(t, t.order[j], name)
    decreases n
  {
    if n == 0 then None
    else if NameIs(t, t.order[n - 1], name) then Some(n - 1)
    else LastMatch(t, name, n - 1)
  }

  /** The rename loop: every record named `oldName` is renamed. */
  function RenameAll(t: PeerTable, oldName: Json, newName: Json): (r: PeerTable)
    ensures r.order == t.order && r.records.Keys == t.records.Keys
    ensures forall id :: id in t.records ==>
              && r.records[id].name == (if t.records[id].name == oldName then newName else t.records[id].name)
              && r.records[id].video == t.records[id].video
              && r.records[id].audio == t.records[id].audio
              && r.records[id].hand == t.records[id].hand
  {
    PeerTable(t.order, map id | id in t.records ::
                         if t.records[id].name == oldName then t.records[id].(name := newName)
                         else t.records[id])
  }

  /** The `switch (element)` of `peerStatus`: "video", "audio" or "hand"
      selects the field that takes `status`; any other value changes nothing. */
  function SetElement(info: Presence, element: Json, status: Json): Presence {
    if element == Str("video") then info.(video := status)
    else if element == Str("audio") then info.(audio := status)
    else if element == Str("hand") then info.(hand := status)
    else info
  }

  /** The status loop: every record named `name` gets `element` set. */
  function SetStatusAll(t: PeerTable, name: Json, element: Json, status: Json): (r: PeerTable)
    ensures r.order == t.order && r.records.Keys == t.records.Keys
    ensures forall id :: id in t.records && t.records[id].name != name ==> r.records[id] == t.records[id]
    ensures forall id :: id in t.records && t.records[id].name == name ==>
              r.records[id] == SetElement(t.records[id], element, status)
  {
    PeerTable(t.order, map id | id in t.records ::
                         if t.records[id].name == name then SetElement(t.records[id], element, status)
                         else t.records[id])
  }

  /** Replace `peers[room]` when it exists; `for…in` over a missing entry does nothing. */
  function UpdateRoster(s: State, room: Room, t: PeerTable): (r: State)
    ensures r.sockets == s.sockets && r.channels == s.channels && r.joined == s.joined
    ensures r.peers.Keys == s.peers.Keys
    ensures forall x :: x != room ==> Roster(r, x) == Roster(s, x)
    ensures room in s.peers ==> Roster(r, room) == t
    ensures room !in s.peers ==> r == s
  {
    if room in s.peers then s.(peers := s.peers[room := t]) else s
  }

  /** The `cName` handler. Every record of `peers[room]` named `oldName` is
      renamed — not just the first — and `peerConnections` is told, with the
      id of the LAST record renamed, provided some record was renamed, that id
      is truthy (non-empty) and `peerConnections` has a key. */
  function CName(s: State, peerConnections: seq<Id>, room: Room, oldName: Json, newName: Json): (r: (State, seq<Outbound>))
    ensures r.0.sockets == s.sockets && r.0.channels == s.channels && r.0.joined == s.joined
    ensures r.0.peers.Keys == s.peers.Keys
    ensures forall x :: Roster(r.0, x).order == Roster(s, x).order
    ensures forall x :: Roster(r.0, x).records.Keys == Roster(s, x).records.Keys
    ensures forall x :: x != room ==> Roster(r.0, x) == Roster(s, x)
    ensures forall id :: id in Roster(s, room).records ==>
              && Roster(r.0, room).records[id].name ==
                   (if NameIs(Roster(s, room), id, oldName) then newName else Roster(s, room).records[id].name)
              && Roster(r.0, room).records[id].video == Roster(s, room).records[id].video
              && Roster(r.0, room).records[id].audio == Roster(s, room).records[id].audio
              && Roster(r.0, room).records[id].hand == Roster(s, room).records[id].hand
    ensures |r.1| > 0 ==>
              && |peerConnections| > 0
              && exists i :: 0 <= i < |Roster(s, room).order| && NameIs(Roster(s, room), Roster(s, room).order[i], oldName)
    ensures forall o :: o in r.1 ==>
              && o.to in peerConnections && o.to in s.sockets
              && o.msg.OnCName? && o.msg.peerName == newName && o.msg.peerId != ""
              && exists i :: IsLastMatch(Roster(s, room), oldName, i) && o.msg.peerId == Roster(s, room).order[i]
    ensures (exists i :: IsLastMatch(Roster(s, room), oldName, i) && Roster(s, room).order[i] != "") && |peerConnections| > 0 ==>
              forall k :: k in s.sockets ==> multiset(Targets(r.1))[k] == multiset(peerConnections)[k]
  {
    var t := Roster(s, room);
    (UpdateRoster(s, room, RenameAll(t, oldName, newName)),
     RenameNotice(s.sockets, peerConnections, t, oldName, newName))
  }

  /** The `onCName` fan-out of `cName`, over the roster before the rename. */
  function RenameNotice(live: set<Id>, peerConnections: seq<Id>, t: PeerTable, oldName: Json, newName: Json): (out: seq<Outbound>)
    ensures |out| > 0 ==>
              && |peerConnections| > 0
              && exists i :: 0 <= i < |t.order| && NameIs(t, t.order[i], oldName)
    ensures forall o :: o in out ==>
              && o.to in peerConnections && o.to in live
              && o.msg.OnCName? && o.msg.peerName == newName && o.msg.peerId != ""
              && exists i :: IsLastMatch(t, oldName, i) && o.msg.peerId == t.order[i]
    ensures (exists i :: IsLastMatch(t, oldName, i) && t.order[i] != "") && |peerConnections| > 0 ==>
              forall k :: k in live ==> multiset(Targets(out))[k] == multiset(peerConnections)[k]
  {
    var hit := LastMatch(t, oldName, |t.order|);
    if hit.Some? && t.order[hit.value] != "" && |peerConnections| != 0 then
      assert IsLastMatch(t, oldName, hit.value);
      Broadcast(peerConnections, live, OnCName(t.order[hit.value], newName))
    else
      []
  }

  /** The `peerStatus` handler. Every record of `peers[room]` named `name`
      gets the field picked by `element` set to `status`; nothing else
      changes. `peerConnections` is told — with the SENDER's id, whether or
      not any record matched — provided it has a key. */
  function PeerStatus(s: State, me: Id, peerConnections: seq<Id>, room: Room,
                      name: Json, element: Json, status: Json): (r: (State, seq<Outbound>))
    ensures r.0.sockets == s.sockets && r.0.channels == s.channels && r.0.joined == s.joined
    ensures r.0.peers.Keys == s.peers.Keys
    ensures forall x :: Roster(r.0, x).order == Roster(s, x).order
    ensures forall x :: Roster(r.0, x).records.Keys == Roster(s, x).records.Keys
    ensures forall x :: x != room ==> Roster(r.0, x) == Roster(s, x)
    ensures forall id :: id in Roster(s, room).records ==>
              var before := Roster(s, room).records[id];
              var after := Roster(r.0, room).records[id];
              if NameIs(Roster(s, room), id, name) then
                && after.name == before.name
                && after.video == (if element == Str("video") then status else before.video)
                && after.audio == (if element == Str("audio") then status else before.audio)
                && after.hand == (if element == Str("hand") then status else before.hand)
              else after == before
    ensures |peerConnections| == 0 ==> r.1 == []
    ensures forall o :: o in r.1 ==>
              o.to in peerConnections && o.to in s.sockets && o.msg == OnPeerStatus(me, element, status)
    ensures |peerConnections| > 0 ==>
              forall k :: k in s.sockets ==> multiset(Targets(r.1))[k] == multiset(peerConnections)[k]
  {
    var t := Roster(s, room);
    var s' := UpdateRoster(s, room, SetStatusAll(t, name, element, status));
    if |peerConnections| != 0 then
      (s', Broadcast(peerConnections, s.sockets, OnPeerStatus(me, element, status)))
    else
      (s', [])
  }
}

=== FILE: relay.dfy ===
/** The point-to-point relays and the chat relay: `relayICE`, `relaySDP` and
    `msg` (server.js:203-287). None of them touches the stores; each only
    emits, and the event it emits carries the sender's id. */
module Relay {
  import opened Store
  import opened Messages

  /** `relayICE`: forward the candidate to `target` if it is registered. */
  function RelayIce(s: State, me: Id, target: Id, candidate: Json): (out: seq<Outbound>)
    ensures |out| <= 1
    ensures |out| == 1 <==> target in s.sockets
    ensures forall o :: o in out ==> o.to == target && o.msg == IceCandidate(me, candidate)
  {
    SendIfPresent(s.sockets, target, IceCandidate(me, candidate))
  }

  /** `relaySDP`: forward the session description to `target` if it is registered. */
  function RelaySdp(s: State, me: Id, target: Id, description: Json): (out: seq<Outbound>)
    ensures |out| <= 1
    ensures |out| == 1 <==> target in s.sockets
    ensures forall o :: o in out ==> o.to == target && o.msg == SessionDescription(me, description)
  {
    SendIfPresent(s.sockets, target, SessionDescription(me, description))
  }

  /** `msg`: a private message goes to the one named connection, if it is
      registered, and never to anyone in `peerConnections`; a public one goes
      to every key of `peerConnections` that is registered. */
  function Msg(s: State, me: Id, peerConnections: seq<Id>, privateMsg: bool,
               target: Id, name: Json, text: Json): (out: seq<Outbound>)
    ensures privateMsg ==>
              && |out| <= 1
              && (|out| == 1 <==> target in s.sockets)
              && forall o :: o in out ==> o.to == target && o.msg == OnMessage(me, true, name, text)
    ensures !privateMsg ==>
              && (forall o :: o in out ==>
                    o.to in peerConnections && o.to in s.sockets && o.msg == OnMessage(me, false, name, text))
              && (forall k :: k in s.sockets ==> multiset(Targets(out))[k] == multiset(peerConnections)[k])
  {
    if privateMsg then SendIfPresent(s.sockets, target, OnMessage(me, privateMsg, name, text))
    else Broadcast(peerConnections, s.sockets, OnMessage(me, privateMsg, name, text))
  }
}

=== FILE: seqs.dfy ===
/** Insertion-ordered key lists.

    The relay keeps its per-room stores in plain JavaScript objects and walks
    them with `for…in`, which visits string keys in the order they were first
    added.  A sequence without duplicates is the model of such a key list:
    adding a key that is already present leaves it where it is, deleting a key
    keeps the relative order of the others.
 */
module Seqs {

  /** No key occurs twice (the keys of one object are distinct). */
  predicate Distinct<T(==)>(xs: seq<T>) {
    forall i, j :: 0 <= i < j < |xs| ==> xs[i] != xs[j]
  }

  /** `obj[x] = v` on the key list: a new key goes last, a present one keeps its place. */
  function Insert<T(==,!new)>(xs: seq<T>, x: T): (r: seq<T>)
    ensures xs <= r && |r| <= |xs| + 1
    ensures forall y :: y in r <==> y in xs || y == x
    ensures Distinct(xs) ==> Distinct(r)
  {
    if x in xs then xs else xs + [x]
  }

  /** `delete obj[x]` on the key list; deleting an absent key changes
      nothing, and `RemoveKeepsOrder` shows the other keys keep their order. */
  function Remove<T(==,!new)>(xs: seq<T>, x: T): (r: seq<T>)
    ensures forall y :: y in r <==> y in xs && y != x
    ensures |r| <= |xs|
    ensures Distinct(xs) ==> Distinct(r)
    ensures x !in xs ==> r == xs
    decreases |xs|
  {
    if |xs| == 0 then []
    else
      var rest := Remove(xs[1..], x);
      SplitAt(xs);
      if xs[0] == x then
        assert Distinct(xs) ==> x !in xs[1..];
        rest
      else
        assert Distinct(xs) ==> xs[0] !in xs[1..];
        [xs[0]] + rest
  }

  /** Deleting a key from a list of distinct keys cuts out exactly that key
      and leaves every other key in its relative place. */
  lemma {:induction false} RemoveKeepsOrder<T(!new)>(xs: seq<T>, k: nat)
    requires Distinct(xs) && k < |xs|
    ensures Remove(xs, xs[k]) == xs[..k] + xs[k + 1..]
    ensures |Remove(xs, xs[k])| == |xs| - 1
    decreases k
  {
    var tail := xs[1..];
    DistinctTail(xs);
    if k == 0 {
      assert Remove(xs, xs[0]) == tail;
    } else {
      assert xs[k] == tail[k - 1] && xs[0] != xs[k];
      RemoveKeepsOrder(tail, k - 1);
      assert Remove(xs, xs[k]) == [xs[0]] + (tail[..k - 1] + tail[k..]);
      ConsSlices(xs, k - 1);
    }
  }

  /** The tail of a distinct list is distinct and does not hold the head. */
  lemma DistinctTail<T>(xs: seq<T>)
    requires Distinct(xs) && |xs| > 0
    ensures Distinct(xs[1..]) && xs[0] !in xs[1..]
  {
  }

  lemma ConsSlices<T>(xs: seq<T>, j: nat)
    requires j + 1 < |xs|
    ensures [xs[0]] + (xs[1..][..j] + xs[1..][j + 1..]) == xs[..j + 1] + xs[j + 2..]
  {
    assert xs[..j + 1] == [xs[0]] + xs[1..][..j];
    assert xs[j + 2..] == xs[1..][j + 1..];
  }

  /** Slicing a list past its head is slicing its tail. */
  lemma SplitAt<T>(xs: seq<T>)
    requires |xs| > 0
    ensures xs == [xs[0]] + xs[1..]
    ensures forall j :: 0 <= j < |xs| - 1 ==>
              xs[..j + 1] == [xs[0]] + xs[1..][..j] && xs[j + 2..] == xs[1..][j + 1..]
  {
  }

  /** The elements of `xs` that are in `keep`, in their order in `xs`. */
  function Only<T(==,!new)>(xs: seq<T>, keep: set<T>): (r: seq<T>)
    ensures forall y :: y in r <==> y in xs && y in keep
    ensures |r| <= |xs|
    ensures (forall y :: y in xs ==> y in keep) ==> r == xs
    decreases |xs|
  {
    if |xs| == 0 then []
    else
      var rest := Only(xs[1..], keep);
      assert xs == [xs[0]] + xs[1..];
      if xs[0] in keep then [xs[0]] + rest else rest
  }

  /** Adding a fresh key and deleting it again gives back the original list. */
  lemma {:induction false} RemoveInsertFresh<T(!new)>(xs: seq<T>, x: T)
    requires x !in xs
    ensures Remove(Insert(xs, x), x) == xs
    decreases |xs|
  {
    if |xs| == 0 {
      assert Insert(xs, x) == [x];
    } else {
      assert x !in xs[1..];
      RemoveInsertFresh(xs[1..], x);
      assert Insert(xs, x)[1..] == Insert(xs[1..], x);
      assert [xs[0]] + xs[1..] == xs;
    }
  }

  /** A list with no element is empty. */
  lemma NothingInEmpty<T>(xs: seq<T>)
    ensures (forall x :: x !in xs) ==> xs == []
  {
    if |xs| > 0 {
      assert xs[0] in xs;
    }
  }
}

=== FILE: server.dfy ===
/** The whole `connect` block (server.js:103-371) as one step function over
    inbound events, and the invariant over every run of it. */
module Server {
  import opened Seqs
  import opened Store
  import opened Messages
  import opened Membership
  import opened Invariants
  import opened Relay
  import opened PresenceUpdates

  /** What can happen on one connection: the transport's connect and
      disconnect, and the six socket events the relay listens to, with their
      payload fields. */
  datatype Event =
    | Connected
    | Disconnected
    | JoinRequest(channel: Room, peerName: Json, peerVideo: Json, peerAudio: Json, peerHand: Json)
    | IceRelay(peerId: Id, iceCandidate: Json)
    | SdpRelay(peerId: Id, sessionDescription: Json)
    | ChatMessage(peerConnections: seq<Id>, roomId: Room, privateMsg: bool, peerId: Id, name: Json, msg: Json)
    | RenameRequest(peerConnections: seq<Id>, roomId: Room, peerNameOld: Json, peerNameNew: Json)
    | StatusUpdate(peerConnections: seq<Id>, roomId: Room, peerName: Json, element: Json, status: Json)

  /** One handler run for event `ev` on connection `from`; `ice` is the
      configured `iceServers` list. */
  function Step(s: State, from: Id, ev: Event, ice: Json): (r: (State, seq<Outbound>))
    ensures ev.Connected? ==> r.0.sockets == s.sockets + {from} && Rooms(r.0, from) == [] && r.1 == []
    ensures ev.Disconnected? ==> r.0.sockets == s.sockets - {from} && Rooms(r.0, from) == []
    ensures ev.Disconnected? ==>
              forall o :: o in r.1 ==> o.msg.RemovePeer? && ((o.to == from) != (o.msg.peerId == from))
    ensures ev.JoinRequest? && ev.channel in Rooms(s, from) ==> r == (s, [])
    ensures ev.JoinRequest? && ev.channel !in Rooms(s, from) ==>
              && ev.channel in Rooms(r.0, from)
              && from in Members(r.0, ev.channel)
              && |r.1| == 2 * |Members(s, ev.channel)|
    ensures !ev.Connected? && !ev.Disconnected? ==> r.0.sockets == s.sockets
    ensures ev.IceRelay? || ev.SdpRelay? || ev.ChatMessage? ==> r.0 == s
    ensures ev.IceRelay? || ev.SdpRelay? ==> |r.1| <= 1 && (|r.1| == 1 <==> ev.peerId in s.sockets)
    ensures ev.RenameRequest? || ev.StatusUpdate? ==> r.0.channels == s.channels && r.0.joined == s.joined
  {
    match ev
    case Connected => (Connect(s, from), [])
    case Disconnected => Disconnect(s, from)
    case JoinRequest(room, name, video, audio, hand) =>
      var info := Presence(name, video, audio, hand);
      IntroductionsShape(Members(s, room), from, Put(Roster(s, room), from, info), ice);
      Join(s, from, room, info, ice)
    case IceRelay(target, candidate) => (s, RelayIce(s, from, target, candidate))
    case SdpRelay(target, description) => (s, RelaySdp(s, from, target, description))
    case ChatMessage(pcs, _, privateMsg, target, name, text) => (s, Msg(s, from, pcs, privateMsg, target, name, text))
    case RenameRequest(pcs, room, oldName, newName) => CName(s, pcs, room, oldName, newName)
    case StatusUpdate(pcs, room, name, element, status) => PeerStatus(s, from, pcs, room, name, element, status)
  }

  /** What the transport guarantees: a connect comes with a fresh id, every
      other event from a connection that is registered. */
  predicate Admissible(s: State, from: Id, ev: Event) {
    if ev.Connected? then from !in s.sockets else from in s.sockets
  }

  /** The stores after a sequence of events, and whether the transport could
      have delivered it. */
  function Run(s: State, trace: seq<(Id, Event)>, ice: Json): State
    decreases |trace|
  {
    if |trace| == 0 then s
    else Run(Step(s, trace[0].0, trace[0].1, ice).0, trace[1..], ice)
  }

  predicate AdmissibleTrace(s: State, trace: seq<(Id, Event)>, ice: Json)
    decreases |trace|
  {
    |trace| == 0 ||
    (Admissible(s, trace[0].0, trace[0].1) &&
     AdmissibleTrace(Step(s, trace[0].0, trace[0].1, ice).0, trace[1..], ice))
  }

  /** An update that keeps every store's key lists keeps the invariant. */
  lemma SameKeysKeepInv(s: State, s': State)
    requires Inv(s)
    requires s'.sockets == s.sockets && s'.channels == s.channels && s'.joined == s.joined
    requires s'.peers.Keys == s.peers.Keys
    requires forall x :: Roster(s', x).order == Roster(s, x).order
    requires forall x :: Roster(s', x).records.Keys == Roster(s, x).records.Keys
    ensures Inv(s')
  {
    forall room | room in s'.peers
      ensures WellFormed(s'.peers[room]) && |s'.peers[room].order| > 0
    {
      assert Roster(s', room) == s'.peers[room] && Roster(s, room) == s.peers[room];
    }
    assert MembershipInv(s);
    forall id, room
      ensures room in Rooms(s', id) <==> id in Members(s', room)
      ensures id in Members(s', room) <==> id in Roster(s', room).records
    {
      assert room in Rooms(s, id) <==> id in Members(s, room);
      assert id in Members(s, room) <==> id in Roster(s, room).records;
    }
  }

  /** Every handler keeps the cross-store invariant, for every event the
      transport can deliver. */
  lemma StepKeepsInv(s: State, from: Id, ev: Event, ice: Json)
    requires Inv(s)
    requires Admissible(s, from, ev)
    ensures Inv(Step(s, from, ev, ice).0)
  {
    match ev
    case Connected => ConnectKeepsInv(s, from);
    case Disconnected => DisconnectCleans(s, from);
    case JoinRequest(room, name, video, audio, hand) =>
      JoinKeepsInv(s, from, room, Presence(name, video, audio, hand), ice);
    case IceRelay(_, _) =>
    case SdpRelay(_, _) =>
    case ChatMessage(_, _, _, _, _, _) =>
    case RenameRequest(pcs, room, oldName, newName) =>
      SameKeysKeepInv(s, CName(s, pcs, room, oldName, newName).0);
    case StatusUpdate(pcs, room, name, element, status) =>
      SameKeysKeepInv(s, PeerStatus(s, from, pcs, room, name, element, status).0);
  }

  /** The invariant holds after every run the transport can deliver. */
  lemma {:induction false} RunKeepsInv(s: State, trace: seq<(Id, Event)>, ice: Json)
    requires Inv(s)
    requires AdmissibleTrace(s, trace, ice)
    ensures Inv(Run(s, trace, ice))
    decreases |trace|
  {
    if |trace| > 0 {
      StepKeepsInv(s, trace[0].0, trace[0].1, ice);
      RunKeepsInv(Step(s, trace[0].0, trace[0].1, ice).0, trace[1..], ice);
    }
  }

  /** Every state the server can reach from start-up satisfies the invariant. */
  lemma ReachableInv(trace: seq<(Id, Event)>, ice: Json)
    requires AdmissibleTrace(Init, trace, ice)
    ensures Inv(Run(Init, trace, ice))
  {
    InitInv();
    RunKeepsInv(Init, trace, ice);
  }

  /** The lobby walk-through: "x" joins the empty room "lobby" as Alice and
      nothing is emitted; "y" joins as Bob and the two are introduced, "y"
      as the offerer; "y" disconnects, the two are told of the parting, and
      the stores are back to "lobby" holding "x" alone. */
  const Alice := Presence(Str("Alice"), Bool(true), Bool(true), Bool(false))
  const Bob := Presence(Str("Bob"), Bool(true), Bool(true), Bool(false))

  const LobbyWithX := State({"x"}, map["lobby" := ["x"]],
                            map["lobby" := PeerTable(["x"], map["x" := Alice])],
                            map["x" := ["lobby"]])

  const LobbyWithXY := State({"x", "y"}, map["lobby" := ["x", "y"]],
                             map["lobby" := PeerTable(["x", "y"], map["x" := Alice, "y" := Bob])],
                             map["x" := ["lobby"], "y" := ["lobby"]])

  lemma LobbyFirstJoin(ice: Json)
    ensures Step(Connect(Init, "x"), "x", JoinRequest("lobby", Str("Alice"), Bool(true), Bool(true), Bool(false)), ice)
            == (LobbyWithX, [])
  {
    LobbyAliceJoins(ice);
  }

  lemma LobbyAliceJoins(ice: Json)
    ensures Join(Connect(Init, "x"), "x", "lobby", Alice, ice) == (LobbyWithX, [])
  {
    var s0 := Connect(Init, "x");
    assert Rooms(s0, "x") == [] && Members(s0, "lobby") == [] && Roster(s0, "lobby") == EmptyTable;
    assert Insert(Members(s0, "lobby"), "x") == ["x"];
    assert Insert(Rooms(s0, "x"), "lobby") == ["lobby"];
    assert Put(EmptyTable, "x", Alice) == PeerTable(["x"], map["x" := Alice]);
    var r := Join(s0, "x", "lobby", Alice, ice);
    assert r.0.joined == map["x" := ["lobby"]];
    assert r.0.channels == map["lobby" := ["x"]];
    assert r.0.peers == map["lobby" := PeerTable(["x"], map["x" := Alice])];
    assert r.0 == LobbyWithX;
  }

  lemma LobbySecondJoin(ice: Json)
    ensures Step(Connect(LobbyWithX, "y"), "y", JoinRequest("lobby", Str("Bob"), Bool(true), Bool(true), Bool(false)), ice)
            == (LobbyWithXY,
                [Outbound("x", AddPeer("y", LobbyWithXY.peers["lobby"], false, ice)),
                 Outbound("y", AddPeer("x", LobbyWithXY.peers["lobby"], true, ice))])
  {
    LobbyBobJoins(ice);
  }

  lemma LobbyBobJoins(ice: Json)
    ensures Join(Connect(LobbyWithX, "y"), "y", "lobby", Bob, ice)
            == (LobbyWithXY,
                [Outbound("x", AddPeer("y", LobbyWithXY.peers["lobby"], false, ice)),
                 Outbound("y", AddPeer("x", LobbyWithXY.peers["lobby"], true, ice))])
  {
    var c := Connect(LobbyWithX, "y");
    assert Rooms(c, "y") == [] && Members(c, "lobby") == ["x"];
    assert "y" !in Members(c, "lobby");
    assert Insert(Members(c, "lobby"), "y") == ["x", "y"];
    assert Insert(Rooms(c, "y"), "lobby") == ["lobby"];
    var t := LobbyWithXY.peers["lobby"];
    assert Put(Roster(c, "lobby"), "y", Bob) == t;
    var r := Join(c, "y", "lobby", Bob, ice);
    assert r.0.sockets == {"x", "y"};
    assert r.0.joined == map["x" := ["lobby"], "y" := ["lobby"]];
    assert r.0.channels == map["lobby" := ["x", "y"]];
    assert r.0.peers == map["lobby" := t];
    assert r.0 == LobbyWithXY;
    assert r.1 == Introductions(["x"], "y", t, ice);
    LobbyIntroductions(t, ice);
  }

  lemma LobbyIntroductions(t: PeerTable, ice: Json)
    ensures Introductions(["x"], "y", t, ice)
            == [Outbound("x", AddPeer("y", t, false, ice)), Outbound("y", AddPeer("x", t, true, ice))]
  {
    assert ["x"][1..] == [];
  }

  /** The stores once "y" has left "lobby" but is still registered. */
  const LobbyAfterLeave := State({"x", "y"}, map["lobby" := ["x"]],
                                 map["lobby" := PeerTable(["x"], map["x" := Alice])],
                                 map["x" := ["lobby"], "y" := []])

  lemma LobbyLeave()
    ensures Leave(LobbyWithXY, "y", "lobby")
            == (LobbyAfterLeave, [Outbound("x", RemovePeer("y")), Outbound("y", RemovePeer("x"))])
  {
    var s := LobbyWithXY;
    assert Rooms(s, "y") == ["lobby"];
    assert Remove(["x", "y"], "y") == ["x"];
    assert Remove(["lobby"], "lobby") == [];
    assert Delete(s.peers["lobby"], "y") == PeerTable(["x"], map["x" := Alice]);
    var (s1, out) := Leave(s, "y", "lobby");
    assert s1.channels == map["lobby" := ["x"]];
    assert s1.peers == map["lobby" := PeerTable(["x"], map["x" := Alice])];
    assert s1.joined == map["x" := ["lobby"], "y" := []];
    assert s1 == LobbyAfterLeave;
    assert out == [Outbound("x", RemovePeer("y")), Outbound("y", RemovePeer("x"))];
  }

  lemma LobbyDisconnect(ice: Json)
    ensures Step(LobbyWithXY, "y", Disconnected, ice)
            == (LobbyWithX, [Outbound("x", RemovePeer("y")), Outbound("y", RemovePeer("x"))])
  {
    var s := LobbyWithXY;
    assert Rooms(s, "y") == ["lobby"];
    LobbyLeave();
    assert LeaveAll(s, "y", ["lobby"]).0 == LobbyAfterLeave;
    assert LobbyAfterLeave.joined - {"y"} == map["x" := ["lobby"]];
    assert LobbyAfterLeave.sockets - {"y"} == {"x"};
  }
}

=== FILE: store.dfy ===
/** The relay's mutable stores, as one immutable value.

    server.js keeps three module-level objects — `sockets` (registered
    connections), `channels` (room → member connections) and `peers`
    (room → presence record per member) — plus one object per connection,
    `socket.channels`, naming the rooms that connection has joined.  Here
    they are the four fields of `State`, each key list kept in insertion
    order so that `for…in` walks have a well-defined order.
 */
module Store {
  import opened Seqs

  /** A connection id (`socket.id`). */
  type Id = string

  /** A room name (`config.channel`), chosen by the client. */
  type Room = string

  /** A client-supplied value. The relay stores and forwards it and never
      looks inside; the only test it ever makes on one is `==` on names. */
  datatype Json = Undefined | Null | Bool(b: bool) | Num(n: int) | Str(s: string) | Object(text: string)

  /** The presence record `peers[room][id]` = { peer_name, peer_video, peer_audio, peer_hand }. */
  datatype Presence = Presence(name: Json, video: Json, audio: Json, hand: Json)

  /** The object `peers[room]`: its keys in insertion order and the record
      under each key. */
  datatype PeerTable = PeerTable(order: seq<Id>, records: map<Id, Presence>)

  const EmptyTable := PeerTable([], map[])

  /** An object's key list has each key once, and exactly the keys of its map. */
  ghost predicate WellFormed(t: PeerTable) {
    Distinct(t.order) && forall id :: id in t.order <==> id in t.records
  }

  /** `peers[room][id] = info`: a new id goes last, a present one keeps its place. */
  function Put(t: PeerTable, id: Id, info: Presence): PeerTable {
    PeerTable(Insert(t.order, id), t.records[id := info])
  }

  /** `delete peers[room][id]`. */
  function Delete(t: PeerTable, id: Id): PeerTable {
    PeerTable(Remove(t.order, id), t.records - {id})
  }

  datatype State = State(
    sockets: set<Id>,                // keys of `sockets`
    channels: map<Room, seq<Id>>,    // `channels[room]`, member ids in join order
    peers: map<Room, PeerTable>,     // `peers[room]`
    joined: map<Id, seq<Room>>       // `socket.channels` of each registered connection
  )

  /** The stores at process start: four empty objects. */
  const Init := State({}, map[], map[], map[])

  /** The member ids of `channels[room]`; no entry reads as no members. */
  function Members(s: State, room: Room): seq<Id> {
    if room in s.channels then s.channels[room] else []
  }

  /** `peers[room]`; no entry reads as an empty object. */
  function Roster(s: State, room: Room): PeerTable {
    if room in s.peers then s.peers[room] else EmptyTable
  }

  /** The rooms in `socket.channels` of connection `id`. */
  function Rooms(s: State, id: Id): seq<Room> {
    if id in s.joined then s.joined[id] else []
  }

  /** Every registered connection has its own `socket.channels`, and no other id has one. */
  predicate RegistryInv(s: State) {
    s.joined.Keys == s.sockets
  }

  /** Object keys are distinct: no id twice in a room, no room twice in a connection,
      and each `peers[room]` has its keys listed once each. */
  ghost predicate DistinctInv(s: State) {
    && (forall room :: room in s.channels ==> Distinct(s.channels[room]))
    && (forall room :: room in s.peers ==> WellFormed(s.peers[room]))
    && (forall id :: id in s.joined ==> Distinct(s.joined[id]))
  }

  /** `peers[room]` is deleted as soon as it empties. */
  predicate RosterInv(s: State) {
    forall room :: room in s.peers ==> |s.peers[room].order| > 0
  }

  /** The cross-store invariant:
      room ∈ socket.channels  ⇔  id ∈ channels[room]  ⇔  id ∈ peers[room]. */
  ghost predicate MembershipInv(s: State) {
    forall id, room ::
      && (room in Rooms(s, id) <==> id in Members(s, room))
      && (id in Members(s, room) <==> id in Roster(s, room).records)
  }

  ghost predicate Inv(s: State) {
    RegistryInv(s) && DistinctInv(s) && RosterInv(s) && MembershipInv(s)
  }

  /** The empty stores satisfy the invariant. */
  lemma InitInv()
    ensures Inv(Init)
  {
  }

  /** A member of any room is a registered connection. */
  lemma MembersAreRegistered(s: State, room: Room, id: Id)
    requires Inv(s)
    requires id in Members(s, room)
    ensures id in s.sockets
  {
    assert room in Rooms(s, id);
  }
}
